=== FILE: README.md ===
# MyGGV-GPS live position and route layer — a Dafny model

This project models the logic inside the village navigation app's map screen:

- how a raw device location fix becomes the sample the app renders (`adaptPosition`);
- the two-mode geolocation watch that `setupGeolocation` / `startWatching` runs:
  high accuracy first, then low power for good;
- the debug short-circuit that emits one fixed sample;
- what `updateUserPosition` puts on the user-position layer and in the header;
- the straight-line route and the polled arrival check of the `RouteLayer` component.

Everything is a pure function over immutable datatypes. The geolocation watch is
a state machine folded over a sequence of deliveries (`Fix(raw, now) | Failure`).
Its state holds the mode captured by the last started watch,
`isHighAccuracyActiveRef`, the recorded watch with its options, the set of
watches the platform still runs, and every sample handed to the renderer.
The route layer is one effect run folded over interval ticks and its cleanup.
The clock (`Date.now`) is a field of each fix event. Watch ids come from a
counter starting at 1. The Geolocation API only promises ids greater than
zero, so `if (lastWatchId)` is a presence test. `Acquisition.Step` asks that
a delivering tracker keep the one-live-watch discipline. Callbacks only come
from a live watch, and `Acquisition.RunReachable` proves that every reachable
state keeps this discipline.

Modules: `Wrappers` (Option), `Positions` (samples and the adapter),
`Markers` (the renderer), `Acquisition` (the watch machine and teardown),
`RouteLayer` (route and arrival).

## Behaviour worth knowing

- A failure in low-power mode is only logged: no default or fallback sample is emitted (src/App.jsx:292-295).
- Unmounting clears no watch: the mount effect's cleanup reads a ref that is never assigned (src/App.jsx:407-413).
- Arrival is a planar distance in degrees strictly below 0.0005 (src/components/RouteLayer.jsx:60-65).
- The route is a straight two-point line from start to destination (src/components/RouteLayer.jsx:44-57).

## Model

| member | source | states |
|---|---|---|
| Positions.AdaptPosition | src/App.jsx:172-183 | longitude, latitude and accuracy are copied unchanged into `coords`; `source` is exactly the given tag; no top-level accuracy is set; the timestamp is the fix's own when non-zero, otherwise the supplied clock reading (so a stamp of 0 is replaced) |
| Positions.AdaptRoundTrip | src/App.jsx:172-183 | the adapter is lossless on longitude, latitude, accuracy and a truthy timestamp: reading an adapted sample back yields those fields of the fix, with only a zero stamp replaced by the clock reading |
| Positions.DebugSample | src/App.jsx:264-269 | the debug sample sits at INITIAL_POSITION as a bare coordinate pair, has accuracy 5 and source "debug", and is not an adapted fix |
| Markers.StyleLookupBySource | src/App.jsx:221 | the marker style lookup fails for exactly one source tag, "network" |
| Markers.StyleFor | src/App.jsx:37-68 | the lookup `USER_POSITION_STYLES[name]` used at line 221, for the source tags the app writes: a style is found exactly when the tag is one of the keys gps, fallback and debug, and it is the entry under that name; StyleLookupBySource pins it down per source tag |
| Markers.UpdateUserPosition | src/App.jsx:204-238 | a null sample changes nothing; otherwise the state takes the sample's coords, top-level accuracy and source, and the layer is replaced by a circle (only when the top-level accuracy is truthy) followed by the marker |
| Markers.UpdateForgetsPrevious | src/App.jsx:213-235 | rendering a sample clears the layer: the result does not depend on anything shown before |
| Markers.DebugSampleGetsCircle | src/App.jsx:264-271 | the debug sample is drawn with an accuracy circle and the "debug" style, and the header shows accuracy 5 |
| Markers.AdaptedFixNeverGetsCircle | src/App.jsx:224-233 | an adapted fix, whose accuracy is nested in `coords`, never gets a circle and leaves the header's accuracy empty |
| Markers.UpdateUserPositionFixed | src/App.jsx:209-233 | corrected renderer: the header takes the sample's coords and source, the accuracy shown and drawn is the top-level one or else the one in `coords`; a truthy accuracy gives a circle of that radius first; the marker's style is looked up under the source's corrected key |
| Markers.FixedRendererDrawsAccuracy | src/App.jsx:224-233 | with the corrections, every adapted fix with non-zero accuracy gets a circle of that radius and a style, and the debug sample renders as before |
| Acquisition.OptionsFor | src/App.jsx:296-300 | the watch options are {high accuracy, maximumAge 0, timeout 10000} in high-accuracy mode and {low power, 60000, 5000} in low-power mode |
| Acquisition.StartWatching | src/App.jsx:275-304 | starting a watch first clears the recorded one, then records a fresh watch with the mode's options; isHighAccuracyActiveRef equals the new mode; no sample is emitted |
| Acquisition.FalseStringEnablesDebug | src/App.jsx:264 | debug mode is on for any non-empty VITE_DEBUG_GEOLOC value, including the string "false" |
| Acquisition.DebugOn | src/App.jsx:264 | the `VITE_DEBUG_GEOLOC` test: on exactly when the variable is set to a non-empty string (JavaScript truthiness of a string); FalseStringEnablesDebug pins down the string "false" and the empty and unset cases |
| Acquisition.Setup | src/App.jsx:263-312 | in debug mode exactly one debug sample and no watch; otherwise one live high-accuracy watch, the ref set, and nothing emitted yet |
| Acquisition.Step | src/App.jsx:278-295 | a fix emits exactly one sample, tagged "gps" in high-accuracy mode and "network" in low-power mode, before any switch; a high-accuracy fix switches to low power iff its accuracy is below 15; a high-accuracy error switches to low power; a fix that does not switch changes nothing but the emitted samples; a low-power error changes nothing; low power never returns to high accuracy; the watch discipline is kept |
| Acquisition.Run | src/App.jsx:275-307 | a sequence of deliveries keeps the one-live-watch discipline, and a tracker with no live watch ignores every delivery |
| Acquisition.RunReachable | src/App.jsx:275-307 | from a non-debug setup: one live watch whose options match the mode, one sample per fix, at most two watches ever started, and the "gps" samples form a prefix in which only the last may be more precise than 15 m |
| Acquisition.LowPowerAbsorbing | src/App.jsx:279-295 | once in low-power mode, no sequence of fixes or errors returns the machine to high accuracy |
| Acquisition.DebugRunIsStatic | src/App.jsx:264-271 | in debug mode nothing is delivered: the state, with its one sample, never changes |
| Acquisition.ImprovingFixesSwitchToLowPower | src/App.jsx:280-290 | from any non-debug setup, a 20 m fix keeps high accuracy, a following 10 m fix switches to low power, both are tagged "gps", and the next fix is tagged "network" |
| Acquisition.FailuresEmitNothing | src/App.jsx:292-295 | from any non-debug setup, any number of errors emits no sample at all (no fallback position), and ends in low power |
| Acquisition.Unmount | src/App.jsx:409-415 | the mount effect's cleanup clears only what watchIdRef holds, and watchIdRef is never assigned, so the live watches are unchanged |
| Acquisition.UnmountLeaksWatch | src/App.jsx:405-415 | after unmount the watch is still live and a later fix still emits a sample |
| Markers.EverySourceHasStyle | src/App.jsx:37-68 | with network fixes mapped to the "fallback" key, every source tag finds a style |
| Acquisition.StopWatching | src/App.jsx:309-311 | the cleanup setupGeolocation returns stops the recorded watch and changes nothing else: it only removes watches, emits nothing and leaves the mode and ref alone |
| Acquisition.UnmountFixed | src/App.jsx:309-311 | corrected unmount that runs setupGeolocation's cleanup: on a running tracker it leaves no live watch and nothing delivering, and it emits nothing; UnmountFixedStopsEverything extends this to every reachable state |
| Acquisition.UnmountFixedStopsEverything | src/App.jsx:309-311 | running that cleanup on unmount leaves no live watch, and later deliveries change nothing |
| Acquisition.NoAccuracyEverShown | src/App.jsx:209-233 | outside debug mode, after any sequence of deliveries, no accuracy circle is drawn and the header's accuracy is empty |
| RouteLayer.RunEffect | src/components/RouteLayer.jsx:20-36 | nothing (no layer, no route, no interval) exists unless map, start and end are all present; otherwise the layer is attached, the route drawn and polling started with no arrival yet |
| RouteLayer.CalculateRoute | src/components/RouteLayer.jsx:44-57 | the route has exactly two points, the start first and the destination's coordinates last |
| RouteLayer.RouteSpansArrivalDistance | src/components/RouteLayer.jsx:44-63 | the route's segment is the one the arrival test measures, and swapping start and end reverses the route |
| RouteLayer.DistanceSquared | src/components/RouteLayer.jsx:60-63 | the squared planar distance in degrees between start and destination, the radicand of checkArrival's `Math.sqrt`; never negative; ArrivedMatchesDistance and DistanceSymmetric relate it to the source's distance |
| RouteLayer.Arrived | src/components/RouteLayer.jsx:59-65 | checkArrival's test `distance < 0.0005`, compared squared: coinciding points arrive, and an arrival is within 0.0005 along each axis; ArrivedMatchesDistance proves it agrees with the source's square-root test |
| RouteLayer.ArrivedMatchesDistance | src/components/RouteLayer.jsx:60-65 | the squared test holds iff the Euclidean degree distance (the non-negative root) is strictly below 0.0005 |
| RouteLayer.DistanceSymmetric | src/components/RouteLayer.jsx:60-63 | the distance is symmetric in start and end, and coinciding points count as arrival |
| RouteLayer.ThresholdIsExclusive | src/components/RouteLayer.jsx:65 | a distance of exactly 0.0005 is not arrival |
| RouteLayer.Handle | src/components/RouteLayer.jsx:36-69 | a tick of a running interval that meets the threshold stops the interval and reports one arrival; any other tick changes nothing; the cleanup detaches the layer and stops the interval |
| RouteLayer.ArrivalFiresAtMostOnce | src/components/RouteLayer.jsx:36-69 | over any ticks and cleanup of one effect run, onArrival fires at most once, exactly when the threshold is met and a tick comes before the cleanup; the interval runs until arrival or cleanup; the layer stays until cleanup |
| RouteLayer.CleanupIsFinal | src/components/RouteLayer.jsx:38-41 | after the cleanup, later ticks change nothing |

## Findings

| source | as written | input that shows it | evidently intended | confidence | as-written member | corrected member |
|---|---|---|---|---|---|---|
| src/App.jsx:163 | `watchIdRef` is never assigned, and the cleanup returned by `setupGeolocation` is discarded at line 407, so unmount clears no watch | any non-debug mount followed by unmount | unmount stops the live watch | high; not executed | Acquisition.UnmountLeaksWatch | Acquisition.UnmountFixedStopsEverything |
| src/App.jsx:224 | the circle and the header read a top-level `accuracy` that adapted fixes do not have | a gps fix with accuracy 8 | the fix's accuracy (nested in `coords`) is drawn and shown | high; not executed | Markers.AdaptedFixNeverGetsCircle | Markers.FixedRendererDrawsAccuracy |
| src/App.jsx:282 | the "network" tag has no entry in the style table, so the marker gets no style of its own and is drawn with the layer's default | any fix after the switch to low power | network fixes use a style from the table, most likely "fallback" | medium; not executed | Markers.StyleLookupBySource | Markers.EverySourceHasStyle |

The main model keeps the code as written. The corrected definitions
(`Markers.UpdateUserPositionFixed`, `Acquisition.UnmountFixed`) sit beside it
and carry the intended properties.

## Left out

- Map construction, layers, block and POI features, styles other than the style-key lookup, and `recenterMap` (src/App.jsx:24-34, 72-81, 338-403, 418-435): rendering through a mapping library that is not part of this model.
- The marker geometry: OpenLayers receives an object (not a coordinate array) for adapted fixes. What the library draws for that is not modelled.
- The destination lookup `handleDestinationSet` (src/App.jsx:315-336): a backend query plus an alert.
- The device-orientation listener (src/App.jsx:241-260): it only stores a compass reading.
- React hooks, state setters and JSX, the welcome and arrival modals, the bootstrap in `src/main.jsx` and the build configuration.
- React's strict-mode double run of effects in development (src/main.jsx:33) is not modelled. Combined with the leaking unmount, it would leave two watches running.
- `RouteLayer` is not mounted by `src/App.jsx` in this snapshot. Its props are modelled as given.
- Real timers and real geolocation callbacks. Interval ticks and watch deliveries are abstract events, and the clock is a field of each fix.
- `console.error` logging on watch errors.
- IEEE floating point: `Math.sqrt`/`Math.pow` rounding, and NaN (which is falsy for timestamps and accuracies). Coordinates and accuracies are exact reals, and distances are compared squared.
- Positions.AdaptRoundTrip: the device fix also carries altitude, altitudeAccuracy, heading and speed; adaptPosition drops them, so they are not part of `RawFix` and the round trip covers only longitude, latitude, accuracy and the timestamp.
- Acquisition.Setup: watch ids are a counter starting at 1. The browser's actual id values are abstracted; only their freshness and positivity are kept.
- RouteLayer.ArrivalFiresAtMostOnce: covers one effect run. React re-runs the effect when `map`, `start` or `end` change, and each run may fire once.

=== FILE: acquisition.dfy ===
/**
  setupGeolocation / startWatching (src/App.jsx): the live-position watch as a
  pure state machine. Events are deliveries from the watch the platform is
  running (a fix or an error); the state records the mode captured by the
  last started watch, the isHighAccuracyActiveRef cell, the recorded watch
  (`lastWatchId` with its options), the set of watches the platform still
  runs, and every sample handed to updateUserPosition.
*/
module Acquisition {
  import opened Wrappers
  import opened Positions
  import Markers

  /** The `highAccuracy` flag captured by the last started watch; Idle when
      no watch has been started. */
  datatype Mode = Idle | HighAccuracy | LowPower

  /** Geolocation watch ids are greater than zero, so `if (lastWatchId)` is a
      presence test. */
  type WatchId = n: nat | n > 0 witness 1

  datatype WatchOptions = WatchOptions(enableHighAccuracy: bool, maximumAge: nat, timeout: nat)

  datatype Watch = Watch(id: WatchId, options: WatchOptions)

  datatype Tracker = Tracker(
    mode: Mode,
    highAccuracyActive: bool,
    lastWatch: Option<Watch>,
    live: set<WatchId>,
    nextId: WatchId,
    emitted: seq<Sample>)

  /** What a live watch delivers: a fix (with the clock reading at delivery,
      used when the fix's stamp is falsy) or an error. */
  datatype Event = Fix(raw: RawFix, now: int) | Failure

  /** Accuracy (meters) below which a high-accuracy fix ends high-accuracy mode. */
  const PreciseAccuracy: real := 15.0

  /** The options passed to watchPosition in each mode. */
  function OptionsFor(high: bool): (o: WatchOptions)
    ensures o.enableHighAccuracy == high
    ensures high ==> o.maximumAge == 0 && o.timeout == 10000
    ensures !high ==> o.maximumAge == 60000 && o.timeout == 5000
  {
    if high then WatchOptions(true, 0, 10000) else WatchOptions(false, 60000, 5000)
  }

  /** Before setupGeolocation: no watch, the ref at its initial `false`. */
  const Unstarted: Tracker := Tracker(Idle, false, None, {}, 1, [])

  /** startWatching: clears the recorded watch, starts a fresh one with the
      mode's options, records it, and sets isHighAccuracyActiveRef. */
  function StartWatching(t: Tracker, high: bool): (r: Tracker)
    requires t.lastWatch.Some? ==> t.lastWatch.value.id < t.nextId
    requires forall id :: id in t.live ==> id < t.nextId
    ensures r.lastWatch == Some(Watch(t.nextId, OptionsFor(high)))
    ensures r.lastWatch.value.id !in t.live
    ensures t.lastWatch.Some? ==> t.lastWatch.value.id !in r.live
    ensures r.live - {r.lastWatch.value.id} == (if t.lastWatch.Some? then t.live - {t.lastWatch.value.id} else t.live)
    ensures r.lastWatch.value.id in r.live
    ensures r.mode == (if high then HighAccuracy else LowPower)
    ensures r.highAccuracyActive == high
    ensures r.nextId == t.nextId + 1
    ensures r.emitted == t.emitted
  {
    var cleared := if t.lastWatch.Some? then t.live - {t.lastWatch.value.id} else t.live;
    var w := Watch(t.nextId, OptionsFor(high));
    t.(mode := if high then HighAccuracy else LowPower,
       highAccuracyActive := high,
       lastWatch := Some(w),
       live := cleared + {w.id},
       nextId := t.nextId + 1)
  }

  /** `import.meta.env.VITE_DEBUG_GEOLOC` is a string when set; any non-empty
      string is truthy. */
  predicate DebugOn(flag: Option<string>): (on: bool)
    ensures on <==> flag.Some? && |flag.value| > 0
  {
    flag.Some? && flag.value != ""
  }

  /** Even the string "false" switches debugging on. */
  lemma FalseStringEnablesDebug()
    ensures DebugOn(Some("false"))
    ensures !DebugOn(Some("")) && !DebugOn(None)
  {
    assert "false"[0] == 'f';
  }

  /** setupGeolocation: in debug mode one fixed sample and no watch;
      otherwise a single high-accuracy watch. */
  function Setup(flag: Option<string>): (r: Tracker)
    ensures DebugOn(flag) ==> r.emitted == [DebugSample()] && r.lastWatch == None && r.live == {}
    ensures !DebugOn(flag) ==> && r.mode == HighAccuracy && r.highAccuracyActive
                               && r.emitted == []
                               && r.lastWatch.Some? && r.live == {r.lastWatch.value.id}
                               && r.lastWatch.value.options == WatchOptions(true, 0, 10000)
  {
    if DebugOn(flag) then Unstarted.(emitted := [DebugSample()])
    else StartWatching(Unstarted, true)
  }

  /** Callbacks fire only for the recorded watch while the platform runs it. */
  predicate Delivering(t: Tracker) {
    t.lastWatch.Some? && t.lastWatch.value.id in t.live
  }

  /** The watch discipline every running tracker keeps. */
  ghost predicate WatchDiscipline(t: Tracker) {
    && t.mode != Idle
    && t.lastWatch.Some?
    && t.live == {t.lastWatch.value.id}
    && t.lastWatch.value.id < t.nextId
    && t.lastWatch.value.options == OptionsFor(t.mode == HighAccuracy)
    && t.highAccuracyActive == (t.mode == HighAccuracy)
  }

  /** One delivery. A fix is adapted with the source of the capturing watch
      and rendered; a high-accuracy fix more precise than 15 m then switches
      to a low-power watch. An error switches a high-accuracy watch to low
      power and is otherwise only logged. */
  function Step(t: Tracker, e: Event): (r: Tracker)
    requires WatchDiscipline(t) || !Delivering(t)
    ensures !Delivering(t) ==> r == t
    ensures t.mode == LowPower && e.Failure? ==> r == t
    ensures Delivering(t) && e.Fix? ==>
              r.emitted == t.emitted + [AdaptPosition(e.raw, if t.mode == HighAccuracy then Gps else Network, e.now)]
    ensures e.Failure? ==> r.emitted == t.emitted
    ensures t.mode == LowPower ==> r.mode == LowPower
    ensures Delivering(t) && t.mode == HighAccuracy ==>
              (r.mode == LowPower <==> e.Failure? || e.raw.accuracy < PreciseAccuracy)
    ensures Delivering(t) ==> WatchDiscipline(r)
    ensures Delivering(t) && e.Fix? && !(t.mode == HighAccuracy && e.raw.accuracy < PreciseAccuracy) ==>
              r == t.(emitted := r.emitted)
  {
    if !Delivering(t) then t
    else match e
      case Fix(raw, now) =>
        var high := t.mode == HighAccuracy;
        var t1 := t.(emitted := t.emitted + [AdaptPosition(raw, if high then Gps else Network, now)]);
        if high && raw.accuracy < PreciseAccuracy then StartWatching(t1.(highAccuracyActive := false), false)
        else t1
      case Failure =>
        if t.mode == HighAccuracy then StartWatching(t, false) else t
  }

  /** Deliver `evs` in order. A running tracker keeps its watch discipline;
      a tracker with no live watch ignores everything. */
  function Run(t: Tracker, evs: seq<Event>): (r: Tracker)
    requires WatchDiscipline(t) || !Delivering(t)
    ensures WatchDiscipline(t) ==> WatchDiscipline(r)
    ensures !WatchDiscipline(t) ==> r == t
    decreases |evs|
  {
    if |evs| == 0 then t
    else Step(Run(t, evs[..|evs| - 1]), evs[|evs| - 1])
  }

  /** Number of fixes among the events. */
  function CountFixes(evs: seq<Event>): nat
  {
    if |evs| == 0 then 0
    else CountFixes(evs[..|evs| - 1]) + (if evs[|evs| - 1].Fix? then 1 else 0)
  }

  /** A sample adapted from a fix no more precise than the threshold. */
  predicate Imprecise(s: Sample) {
    s.coords.Nested? && s.coords.accuracy >= PreciseAccuracy
  }

  /** Only high-accuracy fixes of 15 m or worse are ever followed by a "gps"
      sample: the gps samples form a prefix, and inside it only the last may
      be precise. */
  ghost predicate GpsPrefix(e: seq<Sample>) {
    forall i, j :: 0 <= i < j < |e| && e[j].source == Gps ==> e[i].source == Gps && Imprecise(e[i])
  }

  /** What the emitted history of a running tracker looks like. */
  ghost predicate History(t: Tracker) {
    && GpsPrefix(t.emitted)
    && (t.mode == HighAccuracy ==> forall i :: 0 <= i < |t.emitted| ==> t.emitted[i].source == Gps && Imprecise(t.emitted[i]))
    && (forall i :: 0 <= i < |t.emitted| ==> t.emitted[i].accuracy == None && t.emitted[i].source != Debug)
    && (t.mode == HighAccuracy ==> t.nextId == 2)
    && (t.mode == LowPower ==> t.nextId == 3)
  }

  lemma StepKeepsHistory(t: Tracker, e: Event)
    requires WatchDiscipline(t) && History(t)
    ensures History(Step(t, e))
  {
    var r := Step(t, e);
    if e.Fix? {
      var s := r.emitted[|t.emitted|];
      assert r.emitted == t.emitted + [s];
      if t.mode == HighAccuracy {
        assert s.source == Gps;
        forall i, j | 0 <= i < j < |r.emitted| && r.emitted[j].source == Gps
          ensures r.emitted[i].source == Gps && Imprecise(r.emitted[i])
        {
          assert r.emitted[i] == t.emitted[i];
        }
      } else {
        assert s.source == Network;
      }
    }
  }

  /** Every run that is not a debug run keeps one live watch whose options
      match its mode, emits exactly one sample per fix, starts at most two
      watches, and emits gps samples only as a prefix in which only the last
      may be more precise than 15 m. */
  lemma {:induction false} RunReachable(flag: Option<string>, evs: seq<Event>)
    requires !DebugOn(flag)
    ensures WatchDiscipline(Run(Setup(flag), evs))
    ensures History(Run(Setup(flag), evs))
    ensures |Run(Setup(flag), evs).emitted| == CountFixes(evs)
    ensures Run(Setup(flag), evs).nextId <= 3
    decreases |evs|
  {
    if |evs| > 0 {
      var prefix := evs[..|evs| - 1];
      RunReachable(flag, prefix);
      StepKeepsHistory(Run(Setup(flag), prefix), evs[|evs| - 1]);
    }
  }

  /** Low-power mode is absorbing. */
  lemma {:induction false} LowPowerAbsorbing(t: Tracker, evs: seq<Event>)
    requires WatchDiscipline(t) && t.mode == LowPower
    ensures Run(t, evs).mode == LowPower
    decreases |evs|
  {
    if |evs| > 0 {
      LowPowerAbsorbing(t, evs[..|evs| - 1]);
    }
  }

  /** A debug setup has no watch: nothing it is told can change it. */
  lemma {:induction false} DebugRunIsStatic(flag: Option<string>, evs: seq<Event>)
    requires DebugOn(flag)
    ensures Run(Setup(flag), evs) == Setup(flag)
    ensures |Run(Setup(flag), evs).emitted| == 1
  {
  }

  /** A 20 m fix keeps high accuracy, a following 10 m fix switches to low
      power, and both are tagged "gps"; the next fix is tagged "network". */
  lemma ImprovingFixesSwitchToLowPower(flag: Option<string>, a: RawFix, b: RawFix, c: RawFix, now: int)
    requires !DebugOn(flag)
    requires a.accuracy == 20.0 && b.accuracy == 10.0
    ensures Run(Setup(flag), [Fix(a, now)]).mode == HighAccuracy
    ensures Run(Setup(flag), [Fix(a, now), Fix(b, now)]).mode == LowPower
    ensures Run(Setup(flag), [Fix(a, now), Fix(b, now), Fix(c, now)]).emitted
            == [AdaptPosition(a, Gps, now), AdaptPosition(b, Gps, now), AdaptPosition(c, Network, now)]
  {
    var s0 := Setup(flag);
    var evs := [Fix(a, now), Fix(b, now), Fix(c, now)];
    assert evs[..2][..1] == evs[..1] == [Fix(a, now)];
    assert evs[..2] == [Fix(a, now), Fix(b, now)];
    assert evs[..1][..0] == [];
    assert Run(s0, []) == s0;
    var s1 := Run(s0, evs[..1]);
    var s2 := Run(s0, evs[..2]);
    assert s1 == Step(s0, Fix(a, now));
    assert s2 == Step(s1, Fix(b, now));
  }

  /** Failures alone never produce a sample: the first moves to low power,
      every later one is ignored. No default position is ever emitted. */
  lemma {:induction false} FailuresEmitNothing(flag: Option<string>, n: nat)
    requires !DebugOn(flag)
    ensures Run(Setup(flag), seq(n, _ => Failure)).emitted == []
    ensures n > 0 ==> Run(Setup(flag), seq(n, _ => Failure)).mode == LowPower
  {
    var evs := seq(n, _ => Failure);
    RunReachable(flag, evs);
    if n > 0 {
      assert evs[..n - 1] == seq(n - 1, _ => Failure);
      FailuresEmitNothing(flag, n - 1);
    }
  }

  // ---- Teardown ----

  /** `watchIdRef.current`: declared but never assigned. */
  const WatchIdRef: Option<WatchId> := None

  /** The mount effect's cleanup: it clears only what watchIdRef holds (the
      cleanup that setupGeolocation returns is discarded by the effect). */
  function Unmount(t: Tracker): (r: Tracker)
    ensures WatchIdRef.None? ==> r.live == t.live
  {
    match WatchIdRef
    case Some(id) => t.(live := t.live - {id})
    case None => t
  }

  /** After unmount the watch keeps running and keeps emitting samples. */
  lemma {:induction false} UnmountLeaksWatch(flag: Option<string>, evs: seq<Event>, fix: RawFix, now: int)
    requires !DebugOn(flag)
    ensures Run(Setup(flag), evs).live != {}
    ensures |Step(Unmount(Run(Setup(flag), evs)), Fix(fix, now)).emitted| == CountFixes(evs) + 1
  {
    RunReachable(flag, evs);
  }

  /** The cleanup setupGeolocation returns: clear the recorded watch. */
  function StopWatching(t: Tracker): (r: Tracker)
    ensures t.lastWatch.Some? ==> t.lastWatch.value.id !in r.live
    ensures r.live <= t.live && r.(live := t.live) == t
  {
    if t.lastWatch.Some? then t.(live := t.live - {t.lastWatch.value.id}) else t
  }

  /** The corrected teardown: run setupGeolocation's cleanup. */
  function UnmountFixed(t: Tracker): (r: Tracker)
    ensures WatchDiscipline(t) ==> r.live == {} && !Delivering(r)
    ensures r.emitted == t.emitted
  {
    StopWatching(t)
  }

  /** The corrected teardown leaves no watch running, and later deliveries
      have nothing to come from. */
  lemma {:induction false} UnmountFixedStopsEverything(flag: Option<string>, evs: seq<Event>, more: seq<Event>)
    ensures UnmountFixed(Run(Setup(flag), evs)).live == {}
    ensures Run(UnmountFixed(Run(Setup(flag), evs)), more) == UnmountFixed(Run(Setup(flag), evs))
  {
    if DebugOn(flag) {
      DebugRunIsStatic(flag, evs);
    } else {
      RunReachable(flag, evs);
    }
  }

  // ---- What the header and the map show ----

  /** Render every emitted sample in order. */
  function RenderAll(v: Markers.View, samples: seq<Sample>): Markers.View
  {
    if |samples| == 0 then v
    else Markers.UpdateUserPosition(RenderAll(v, samples[..|samples| - 1]), Some(samples[|samples| - 1]))
  }

  /** Outside debug mode no accuracy is ever shown: no circle is drawn and the
      header's accuracy is empty after every fix. */
  lemma NoAccuracyEverShown(flag: Option<string>, evs: seq<Event>)
    requires !DebugOn(flag)
    ensures !Markers.HasCircle(RenderAll(Markers.InitialView, Run(Setup(flag), evs).emitted))
    ensures RenderAll(Markers.InitialView, Run(Setup(flag), evs).emitted).positionAccuracy == None
  {
    RunReachable(flag, evs);
    var e := Run(Setup(flag), evs).emitted;
    if |e| > 0 {
      var v := RenderAll(Markers.InitialView, e);
      assert e[|e| - 1].accuracy == None;
      assert v.features == [v.features[0]];
    }
  }
}

=== FILE: markers.dfy ===
/**
  updateUserPosition (src/App.jsx): which features the user-position layer
  holds after a sample is rendered, and what the header shows. Map, style and
  feature objects are reduced to the facts the logic decides: whether an
  accuracy circle exists, and which style key the marker is looked up under.
*/
module Markers {
  import opened Wrappers
  import opened Positions

  /** The keys of USER_POSITION_STYLES. */
  const StyleKeys: set<string> := {"gps", "fallback", "debug"}

  /** `USER_POSITION_STYLES[name]` for the source tags the app writes: the
      key found, or None for undefined. Names inherited from
      `Object.prototype` are not modelled; the app never writes them. */
  function StyleFor(name: string): (style: Option<string>)
    ensures style.Some? <==> name in StyleKeys
    ensures style.Some? ==> style.value == name
  {
    if name in StyleKeys then Some(name) else None
  }

  /** Which source tags find a style: every tag except "network". */
  lemma StyleLookupBySource(s: Source)
    ensures StyleFor(SourceName(s)) == None <==> s == Network
  {
    if s == Network {
      assert SourceName(s) !in StyleKeys by {
        assert SourceName(s) == "network";
        assert "network"[0] == 'n';
      }
    }
  }

  datatype Feature =
    | AccuracyCircle(center: Coords, radius: real)
    | PositionMarker(at: Coords, accuracy: Option<real>, source: Source, style: Option<string>)

  /** The React state the header reads and the user-position vector source. */
  datatype View = View(
    userPosition: Option<Coords>,
    positionAccuracy: Option<real>,
    positionSource: Option<Source>,
    features: seq<Feature>)

  const InitialView: View := View(None, None, None, [])

  /** JavaScript truthiness of an optional number (NaN not modelled). */
  predicate Truthy(a: Option<real>) {
    a.Some? && a.value != 0.0
  }

  /** updateUserPosition: a null sample changes nothing; otherwise the layer is
      cleared and refilled with an accuracy circle (only when the TOP-LEVEL
      accuracy is truthy) followed by the position marker. */
  function UpdateUserPosition(v: View, p: Option<Sample>): (r: View)
    ensures p.None? ==> r == v
    ensures p.Some? ==> && r.userPosition == Some(p.value.coords)
                        && r.positionAccuracy == p.value.accuracy
                        && r.positionSource == Some(p.value.source)
    ensures p.Some? ==> |r.features| == (if Truthy(p.value.accuracy) then 2 else 1)
    ensures p.Some? ==> r.features[|r.features| - 1]
                        == PositionMarker(p.value.coords, p.value.accuracy, p.value.source,
                                          StyleFor(SourceName(p.value.source)))
    ensures p.Some? && Truthy(p.value.accuracy) ==>
              r.features[0] == AccuracyCircle(p.value.coords, p.value.accuracy.value)
  {
    match p
    case None => v
    case Some(s) =>
      var marker := PositionMarker(s.coords, s.accuracy, s.source, StyleFor(SourceName(s.source)));
      var circle := if Truthy(s.accuracy) then [AccuracyCircle(s.coords, s.accuracy.value)] else [];
      View(Some(s.coords), s.accuracy, Some(s.source), circle + [marker])
  }

  predicate HasCircle(v: View) {
    exists i :: 0 <= i < |v.features| && v.features[i].AccuracyCircle?
  }

  /** Rendering replaces everything: the result does not depend on what the
      layer or the state held before. */
  lemma UpdateForgetsPrevious(v1: View, v2: View, s: Sample)
    ensures UpdateUserPosition(v1, Some(s)) == UpdateUserPosition(v2, Some(s))
  {
  }

  /** The debug sample is drawn with a 5 m circle and the "debug" style. */
  lemma DebugSampleGetsCircle(v: View)
    ensures HasCircle(UpdateUserPosition(v, Some(DebugSample())))
    ensures UpdateUserPosition(v, Some(DebugSample())).positionAccuracy == Some(DebugAccuracy)
    ensures UpdateUserPosition(v, Some(DebugSample())).features[1].style == Some("debug")
  {
    var r := UpdateUserPosition(v, Some(DebugSample()));
    assert r.features[0].AccuracyCircle?;
  }

  /** An adapted fix keeps its accuracy under `coords`, so the top-level read
      finds nothing: never a circle, and the header's accuracy stays empty. */
  lemma AdaptedFixNeverGetsCircle(v: View, fix: RawFix, source: Source, now: int)
    ensures !HasCircle(UpdateUserPosition(v, Some(AdaptPosition(fix, source, now))))
    ensures UpdateUserPosition(v, Some(AdaptPosition(fix, source, now))).positionAccuracy == None
  {
    var r := UpdateUserPosition(v, Some(AdaptPosition(fix, source, now)));
    assert r.features == [r.features[0]];
  }

  // ---- Corrected renderer (see Findings in README.md) ----

  /** The corrected accuracy read: the top-level field when present,
      otherwise the one nested in `coords`. */
  function EffectiveAccuracy(s: Sample): Option<real>
  {
    if s.accuracy.Some? then s.accuracy
    else match s.coords
      case Nested(_, _, acc) => Some(acc)
      case Pair(_, _) => None
  }

  /** The corrected style key: network fixes are drawn with the "fallback"
      style. */
  function IntendedStyleKey(s: Source): string
  {
    match s
    case Gps => "gps"
    case Network => "fallback"
    case Debug => "debug"
  }

  /** updateUserPosition with both defects removed. */
  function UpdateUserPositionFixed(v: View, p: Option<Sample>): (r: View)
    ensures p.None? ==> r == v
    ensures p.Some? ==> r.userPosition == Some(p.value.coords) && r.positionSource == Some(p.value.source)
    ensures p.Some? ==> r.positionAccuracy == EffectiveAccuracy(p.value)
    ensures p.Some? ==> |r.features| == (if Truthy(EffectiveAccuracy(p.value)) then 2 else 1)
    ensures p.Some? ==> r.features[|r.features| - 1].PositionMarker?
    ensures p.Some? ==> r.features[|r.features| - 1].style == StyleFor(IntendedStyleKey(p.value.source))
    ensures p.Some? && Truthy(EffectiveAccuracy(p.value)) ==>
              r.features[0] == AccuracyCircle(p.value.coords, EffectiveAccuracy(p.value).value)
  {
    match p
    case None => v
    case Some(s) =>
      var acc := EffectiveAccuracy(s);
      var marker := PositionMarker(s.coords, acc, s.source, StyleFor(IntendedStyleKey(s.source)));
      var circle := if Truthy(acc) then [AccuracyCircle(s.coords, acc.value)] else [];
      View(Some(s.coords), acc, Some(s.source), circle + [marker])
  }

  /** With the corrected keys, every source finds a style. */
  lemma EverySourceHasStyle(s: Source)
    ensures StyleFor(IntendedStyleKey(s)).Some?
    ensures s == Network ==> StyleFor(IntendedStyleKey(s)) == Some("fallback")
  {
  }

  /** With the corrections, every adapted fix with a non-zero accuracy gets a
      circle of that radius and a style, and the debug sample is rendered
      exactly as before. */
  lemma FixedRendererDrawsAccuracy(v: View, fix: RawFix, source: Source, now: int)
    requires fix.accuracy != 0.0
    ensures HasCircle(UpdateUserPositionFixed(v, Some(AdaptPosition(fix, source, now))))
    ensures UpdateUserPositionFixed(v, Some(AdaptPosition(fix, source, now))).features[0]
            == AccuracyCircle(Nested(fix.longitude, fix.latitude, fix.accuracy), fix.accuracy)
    ensures UpdateUserPositionFixed(v, Some(AdaptPosition(fix, source, now))).positionAccuracy == Some(fix.accuracy)
    ensures UpdateUserPositionFixed(v, Some(AdaptPosition(fix, source, now))).features[1].style.Some?
    ensures UpdateUserPositionFixed(v, Some(DebugSample())) == UpdateUserPosition(v, Some(DebugSample()))
  {
    var r := UpdateUserPositionFixed(v, Some(AdaptPosition(fix, source, now)));
    assert r.features[0].AccuracyCircle?;
  }
}

=== FILE: positions.dfy ===
/**
  Position samples as the app passes them to its marker renderer, and the
  adapter that turns a raw device fix into such a sample (src/App.jsx).
*/
module Positions {
  import opened Wrappers

  /** A raw fix as delivered by the device location provider. `timestamp` is
      the provider's millisecond stamp; 0 stands for a falsy stamp. */
  datatype RawFix = RawFix(longitude: real, latitude: real, accuracy: real, timestamp: int)

  /** The `coords` field of a sample. Adapted fixes carry an object with
      longitude, latitude and accuracy; the debug sample carries a bare
      `[longitude, latitude]` array and no accuracy inside it. */
  datatype Coords =
    | Nested(longitude: real, latitude: real, accuracy: real)
    | Pair(longitude: real, latitude: real)

  /** The acquisition source tag of a sample. */
  datatype Source = Gps | Network | Debug

  /** The string the app writes into the `source` field. */
  function SourceName(s: Source): string
  {
    match s
    case Gps => "gps"
    case Network => "network"
    case Debug => "debug"
  }

  /** A sample handed to the marker renderer. `accuracy` is the TOP-LEVEL
      field, which only the debug sample sets; `timestamp` is absent from the
      debug sample. */
  datatype Sample = Sample(coords: Coords, accuracy: Option<real>, source: Source, timestamp: Option<int>)

  /** JavaScript truthiness of a numeric millisecond stamp (NaN not modelled). */
  predicate TruthyStamp(t: int) {
    t != 0
  }

  /** adaptPosition: copies the fix's coordinates and accuracy into `coords`,
      tags the sample with `source`, and keeps the fix's stamp unless it is
      falsy, in which case the clock reading `now` is used. */
  function AdaptPosition(fix: RawFix, source: Source, now: int): (s: Sample)
    ensures s.coords == Nested(fix.longitude, fix.latitude, fix.accuracy)
    ensures s.source == source
    ensures s.accuracy == None
    ensures s.timestamp.Some?
    ensures fix.timestamp != 0 ==> s.timestamp.value == fix.timestamp
    ensures fix.timestamp == 0 ==> s.timestamp.value == now
  {
    Sample(Nested(fix.longitude, fix.latitude, fix.accuracy), None, source,
           Some(if TruthyStamp(fix.timestamp) then fix.timestamp else now))
  }

  /** Reads a raw fix back out of an adapted sample; None for a sample that
      was not produced by the adapter. */
  function ReadBack(s: Sample): (r: Option<RawFix>)
    ensures r.Some? <==> s.coords.Nested? && s.timestamp.Some?
  {
    match s.coords
    case Nested(lon, lat, acc) =>
      (match s.timestamp
       case Some(t) => Some(RawFix(lon, lat, acc, t))
       case None => None)
    case Pair(_, _) => None
  }

  /** The adapter is lossless on longitude, latitude, accuracy and a truthy
      timestamp: reading an adapted sample back yields the fix itself, with
      only a falsy stamp replaced by the clock reading. */
  lemma AdaptRoundTrip(fix: RawFix, source: Source, now: int)
    ensures fix.timestamp != 0 ==> ReadBack(AdaptPosition(fix, source, now)) == Some(fix)
    ensures fix.timestamp == 0 ==> ReadBack(AdaptPosition(fix, source, now)) == Some(fix.(timestamp := now))
  {
  }

  /** INITIAL_POSITION, [longitude, latitude]. */
  const InitialLongitude: real := 120.95134859887523
  const InitialLatitude: real := 14.347872973134175

  /** The accuracy written into the debug sample. */
  const DebugAccuracy: real := 5.0

  /** The fixed sample emitted when geolocation debugging is switched on. */
  function DebugSample(): (s: Sample)
    ensures s.coords == Pair(InitialLongitude, InitialLatitude)
    ensures s.accuracy == Some(DebugAccuracy) && s.source == Debug
    ensures ReadBack(s) == None
  {
    Sample(Pair(InitialLongitude, InitialLatitude), Some(DebugAccuracy), Debug, None)
  }
}

=== FILE: route_layer.dfy ===
/**
  RouteLayer (src/components/RouteLayer.jsx): one run of the component's
  effect. With a map, a start and an end present it attaches a route layer
  holding the straight two-point line from start to end and starts a polling
  interval; each tick tests arrival and, on arrival, clears the interval
  before reporting it. The effect's cleanup detaches the layer and clears the
  interval. Interval ticks and the cleanup are abstract events.
*/
module RouteLayer {
  import opened Wrappers

  /** A coordinate pair in degrees. */
  datatype Point = Point(longitude: real, latitude: real)

  /** The `end` prop: a destination whose coordinates sit under `coordinates`. */
  datatype Destination = Destination(coordinates: Point)

  /** The component's props; the map matters only by its presence. */
  datatype Props = Props(hasMap: bool, start: Option<Point>, end: Option<Destination>)

  /** The arrival threshold, in degrees of planar distance. */
  const Threshold: real := 0.0005

  /** Squared planar distance in degrees. */
  function DistanceSquared(a: Point, b: Point): (d: real)
    ensures d >= 0.0
  {
    var dx := a.longitude - b.longitude;
    var dy := a.latitude - b.latitude;
    dx * dx + dy * dy
  }

  /** checkArrival's test, squared on both sides: coinciding points arrive,
      and an arrival is within the threshold along each axis. */
  predicate Arrived(start: Point, end: Destination): (arrived: bool)
    ensures start == end.coordinates ==> arrived
    ensures arrived ==> -Threshold < start.longitude - end.coordinates.longitude < Threshold
    ensures arrived ==> -Threshold < start.latitude - end.coordinates.latitude < Threshold
  {
    AxisBound(start, end.coordinates);
    DistanceSquared(start, end.coordinates) < Threshold * Threshold
  }

  /** A squared distance below the threshold's square bounds each axis. */
  lemma AxisBound(a: Point, b: Point)
    ensures DistanceSquared(a, b) < Threshold * Threshold ==>
              && -Threshold < a.longitude - b.longitude < Threshold
              && -Threshold < a.latitude - b.latitude < Threshold
  {
    var dx := a.longitude - b.longitude;
    var dy := a.latitude - b.latitude;
    assert DistanceSquared(a, b) == dx * dx + dy * dy;
    SquareAtLeast(dx);
    SquareAtLeast(dy);
  }

  /** A square is never negative, and is at least the threshold's square for
      a difference at least the threshold in size. */
  lemma SquareAtLeast(x: real)
    ensures x * x >= 0.0
    ensures (x >= Threshold || x <= -Threshold) ==> x * x >= Threshold * Threshold
  {
    var m := if x >= 0.0 then x else -x;
    assert m * m == x * x;
    if m > Threshold {
      SquareMonotone(Threshold, m);
    }
  }

  lemma SquareMonotone(x: real, y: real)
    requires 0.0 <= x < y
    ensures x * x < y * y
  {
    var k := y - x;
    assert x * k >= 0.0;
    assert k * k > 0.0;
    assert y * y == x * x + 2.0 * x * k + k * k;
  }

  /** The squared test agrees with the source's test on the square root: for
      the non-negative distance `d` whose square is the squared distance,
      arrival holds exactly when `d` is strictly below the threshold. */
  lemma ArrivedMatchesDistance(start: Point, end: Destination, d: real)
    requires d >= 0.0 && d * d == DistanceSquared(start, end.coordinates)
    ensures Arrived(start, end) <==> d < Threshold
  {
    if d < Threshold {
      SquareMonotone(d, Threshold);
    } else if d > Threshold {
      SquareMonotone(Threshold, d);
    }
  }

  /** The distance is symmetric, and coinciding points count as arrival. */
  lemma DistanceSymmetric(a: Point, b: Point)
    ensures DistanceSquared(a, b) == DistanceSquared(b, a)
    ensures Arrived(a, Destination(b)) <==> Arrived(b, Destination(a))
    ensures Arrived(a, Destination(a))
  {
    var dx := a.longitude - b.longitude;
    var dy := a.latitude - b.latitude;
    assert (-dx) * (-dx) == dx * dx;
    assert (-dy) * (-dy) == dy * dy;
  }

  /** Moving a point by (dlon, dlat) puts it at squared distance
      dlon² + dlat² from where it was. */
  lemma ShiftedDistance(a: Point, dlon: real, dlat: real)
    ensures DistanceSquared(a, Point(a.longitude + dlon, a.latitude + dlat)) == dlon * dlon + dlat * dlat
  {
    var b := Point(a.longitude + dlon, a.latitude + dlat);
    assert a.longitude - b.longitude == -dlon;
    assert a.latitude - b.latitude == -dlat;
    assert (-dlon) * (-dlon) == dlon * dlon && (-dlat) * (-dlat) == dlat * dlat;
  }

  /** A distance of exactly the threshold is not arrival, shown here along
      each axis; ArrivedMatchesDistance with `d == Threshold` gives the
      general case. */
  lemma ThresholdIsExclusive(start: Point)
    ensures !Arrived(start, Destination(Point(start.longitude + Threshold, start.latitude + 0.0)))
    ensures !Arrived(start, Destination(Point(start.longitude + 0.0, start.latitude - Threshold)))
  {
    ShiftedDistance(start, Threshold, 0.0);
    ShiftedDistance(start, 0.0, -Threshold);
    assert start.latitude + -Threshold == start.latitude - Threshold;
  }

  /** calculateRoute: the line string from the start to the destination. */
  function CalculateRoute(start: Point, end: Destination): (route: seq<Point>)
    ensures |route| == 2
    ensures route[0] == start && route[|route| - 1] == end.coordinates
  {
    [start, end.coordinates]
  }

  /** The route's one segment is exactly the segment the arrival test
      measures, and reversing the trip reverses the route. */
  lemma RouteSpansArrivalDistance(start: Point, end: Destination)
    ensures DistanceSquared(CalculateRoute(start, end)[0], CalculateRoute(start, end)[1])
            == DistanceSquared(start, end.coordinates)
    ensures CalculateRoute(end.coordinates, Destination(start))
            == [CalculateRoute(start, end)[1], CalculateRoute(start, end)[0]]
  {
  }

  /** One effect run: its fixed inputs, the route drawn, whether the layer is
      attached to the map, whether the polling interval runs, and how many
      times onArrival has been called. */
  datatype Session = Session(
    start: Point,
    end: Destination,
    route: seq<Point>,
    layerAttached: bool,
    checking: bool,
    arrivals: nat)

  /** The effect: nothing at all unless map, start and end are all present. */
  function RunEffect(p: Props): (s: Option<Session>)
    ensures s.None? <==> !p.hasMap || p.start.None? || p.end.None?
    ensures s.Some? ==> && s.value.start == p.start.value && s.value.end == p.end.value
                        && s.value.route == CalculateRoute(p.start.value, p.end.value)
                        && s.value.layerAttached && s.value.checking && s.value.arrivals == 0
  {
    if !p.hasMap || p.start.None? || p.end.None? then None
    else Some(Session(p.start.value, p.end.value, CalculateRoute(p.start.value, p.end.value), true, true, 0))
  }

  /** An interval tick, or the effect's cleanup. */
  datatype RouteEvent = Tick | Cleanup

  /** A tick of a running interval checks arrival; on arrival the interval is
      cleared first, then onArrival is called. Cleanup detaches the layer and
      clears the interval. */
  function Handle(s: Session, e: RouteEvent): (r: Session)
    ensures r.start == s.start && r.end == s.end && r.route == s.route
    ensures e.Cleanup? ==> !r.layerAttached && !r.checking && r.arrivals == s.arrivals
    ensures e.Tick? ==> r.layerAttached == s.layerAttached
    ensures e.Tick? && !s.checking ==> r == s
    ensures e.Tick? && s.checking && Arrived(s.start, s.end) ==>
              r == s.(checking := false, arrivals := s.arrivals + 1)
    ensures e.Tick? && !(s.checking && Arrived(s.start, s.end)) ==> r == s
    ensures r.arrivals > s.arrivals ==> !r.checking
  {
    match e
    case Tick =>
      if s.checking && Arrived(s.start, s.end) then s.(checking := false, arrivals := s.arrivals + 1)
      else s
    case Cleanup => s.(layerAttached := false, checking := false)
  }

  function Replay(s: Session, evs: seq<RouteEvent>): Session
  {
    if |evs| == 0 then s else Handle(Replay(s, evs[..|evs| - 1]), evs[|evs| - 1])
  }

  /** Some tick arrives while the interval has not yet been cleaned up. */
  predicate LiveTick(evs: seq<RouteEvent>)
  {
    exists i :: 0 <= i < |evs| && evs[i] == Tick && Cleanup !in evs[..i]
  }

  lemma LiveTickSnoc(evs: seq<RouteEvent>, e: RouteEvent)
    ensures LiveTick(evs + [e]) <==> LiveTick(evs) || (e == Tick && Cleanup !in evs)
  {
    var all := evs + [e];
    assert all[..|evs|] == evs;
    if LiveTick(all) {
      var i :| 0 <= i < |all| && all[i] == Tick && Cleanup !in all[..i];
      if i < |evs| {
        assert all[..i] == evs[..i];
      }
    }
    if LiveTick(evs) {
      var i :| 0 <= i < |evs| && evs[i] == Tick && Cleanup !in evs[..i];
      assert all[i] == Tick && all[..i] == evs[..i];
    }
  }

  /** Over any sequence of ticks and a cleanup: onArrival fires at most once,
      exactly when the threshold is met and a tick comes before the cleanup;
      the interval runs until arrival or cleanup, and the layer stays
      attached until cleanup. */
  lemma {:induction false} ArrivalFiresAtMostOnce(p: Props, evs: seq<RouteEvent>)
    requires RunEffect(p).Some?
    ensures var s := RunEffect(p).value;
            && Replay(s, evs).arrivals == (if Arrived(s.start, s.end) && LiveTick(evs) then 1 else 0)
            && Replay(s, evs).checking == (Cleanup !in evs && !(Arrived(s.start, s.end) && LiveTick(evs)))
            && Replay(s, evs).layerAttached == (Cleanup !in evs)
    decreases |evs|
  {
    if |evs| > 0 {
      var prefix := evs[..|evs| - 1];
      var e := evs[|evs| - 1];
      assert evs == prefix + [e];
      ArrivalFiresAtMostOnce(p, prefix);
      LiveTickSnoc(prefix, e);
    }
  }

  /** After the cleanup the layer is gone, the interval is stopped, and no
      later tick changes anything. */
  lemma {:induction false} CleanupIsFinal(s: Session, evs: seq<RouteEvent>)
    requires !s.layerAttached && !s.checking
    ensures Replay(s, evs) == s
    decreases |evs|
  {
    if |evs| > 0 {
      CleanupIsFinal(s, evs[..|evs| - 1]);
    }
  }
}

=== FILE: wrappers.dfy ===
/** JavaScript's "maybe absent" values (undefined / null fields and props). */
module Wrappers {

  datatype Option<+T> = None | Some(value: T)
}
